=== FILE: README.md ===
# Corporate efficiency analyzer — a Dafny model of its scoring core

The analyzer (`app.py`) reads a list of ticker symbols from an uploaded CSV
file, fetches each company's financial statements from a market-data
provider, and reports per ticker the return on equity, margin, debt/equity,
dividend yield, an Altman Z-score, a simplified Piotroski F-score and the
annual and quarterly Cash/Debt ratios, colouring the Z-score cell by risk band.

This project models the deterministic part of that flow:

- `Statement` — a statement table as `map<string, seq<real>>` (label to
  period values, most recent first), a statement as `Option<Table>`, and the
  resolver `get_val` (`GetVal`): the first candidate label present wins,
  0 when the table is absent or empty or no label is present, and a failure
  (`None`) when the requested period does not exist.
- `Symbol` — ticker normalisation: `strip()`, ASCII `upper()`, `.` to `-`.
- `Scores` — the three-criterion F-score and its `"n/4"` label, the Altman
  Z-score over exact reals, and the Cash/Debt cell `Ratio(x) | NoDebt`.
- `Styling` — `color_z` over `Num(real) | Text(string)` cells, and three
  risk bands: the legend's safe (above 3) and distress (below 1.8), with
  grey between them, 1.8 and 3 included.
- `Analysis` — `analyze_efficiency` composed from the above, with the data
  provider as a parameter `fetch: string -> Option<Snapshot>` (None when
  retrieval raises).
- `Batch` and `App` — choice of the ticker column, `dropna().unique()`, and
  the loop that keeps the successful rows in input order. The loop's
  `if res:` keeps exactly the rows that are not None, since every row the
  analysis returns is a non-empty dictionary.

A table counts as empty, as a data frame does, when it has no labels or no
period columns: no label carries a period value. The `Table` type itself
admits rows of different lengths, which no data frame can hold; the results
that need data-frame shape (`GetValLatestDefined`, `ResolveDefined`,
`AnalyzeSnapshotSucceeds`) take rectangular tables (`WellFormed`) as a
hypothesis.

The F-score counts three criteria but is displayed over 4, and the legend
calls 4 the maximum; `FScoreLabelBelowDenominator` proves the label is
always one of `0/4` … `3/4`. The Cash/Debt
"No Debt" cell is likewise taken from the code: it appears whenever the debt
figure is not positive, negative debt included.

Division by zero in the Z-score is not guarded by the code. The model gives
`AltmanZ` the precondition that total assets and total liabilities are
non-zero, and `AnalyzeSnapshot` treats a zero divisor as a failed ticker.

## Model

| member | source | states |
|---|---|---|
| `Statement.FirstMatch` | app.py:12-13 | the position found is the first candidate label that is a row of the table; None exactly when no candidate is a row |
| `Statement.GetVal` | app.py:10-16 | 0 for an absent or empty table and when no candidate label is present; otherwise the value at the requested period under the first present candidate, or a failure when that period does not exist |
| `Statement.GetValLatestDefined` | app.py:10-16 | on an absent or rectangular table, looking up the latest period never fails, whatever the labels |
| `Statement.GetValIgnoresLaterLabels` | app.py:12-15 | once some candidate is present, labels appended after the list never change the result |
| `Symbol.Strip` | app.py:20 | `strip()` keeps a contiguous slice of the input; everything removed before and after it is whitespace, and the slice neither starts nor ends with whitespace |
| `Symbol.StripOfPadded` | app.py:20 | whitespace around a trimmed middle is exactly what `strip()` removes, so the result is that middle |
| `Symbol.Upper` | app.py:20 | `upper()` keeps the length and upper-cases each ASCII letter in place |
| `Symbol.DashDots` | app.py:20 | `replace('.', '-')` keeps the length and puts `-` exactly where `.` stood |
| `Symbol.NormalizeSymbol` | app.py:20 | the provider symbol is the stripped input character by character, upper-cased, with `-` for `.`; so it has no `.`, no lower-case ASCII letter, no surrounding whitespace, and is no longer than the input |
| `Symbol.NormalizeFixesNormal` | app.py:20 | a symbol that is trimmed, upper case and without `.` is passed to the provider unchanged |
| `Symbol.NormalizeIdempotent` | app.py:20 | normalising a normalised symbol returns it unchanged |
| `Symbol.NormalizeIgnoresPadding` | app.py:20 | whitespace added on either side of a symbol does not change the provider symbol |
| `Scores.FScore` | app.py:44-48 | the F-score is at most 3; it is 3 exactly when net income is positive and operating cash flow exceeds it; it is 0 exactly when net income is not positive and cash flow does not exceed it |
| `Scores.FScoreMonotoneInCashFlow` | app.py:46-48 | with net income fixed, more operating cash flow never lowers the F-score |
| `Scores.Decimal` | app.py:80 | `str(int)` in the f-string: at least one decimal digit, exactly one for counts below 10, and no leading zero |
| `Scores.DecimalRoundTrip` | app.py:80 | the decimal rendering of a count reads back as that count |
| `Scores.FScoreLabel` | app.py:80 | the label ends in `/4` and the digits before it, without a leading zero, read back as the score |
| `Scores.FScoreLabelBelowDenominator` | app.py:80 | every label the F-score can produce is one of `0/4`, `1/4`, `2/4`, `3/4`; `4/4` never appears |
| `Scores.CashDebtRatio` | app.py:81-82 | NoDebt exactly when debt is not positive (negative included); otherwise a ratio that times the debt gives the cash, exceeds 1 exactly when cash exceeds debt, and is non-negative exactly when cash is |
| `Scores.AltmanZ` | app.py:67-71 | the five weighted ratios equal one weighted sum of working capital, retained earnings, EBIT and revenue over total assets, plus 0.6 times market cap over total liabilities; defined only for non-zero divisors |
| `Scores.AltmanZMonotoneInAssetRatios` | app.py:67-71 | with positive total assets and the other inputs fixed, raising working capital, retained earnings, EBIT or revenue never lowers the Z-score |
| `Scores.AltmanZMonotoneInMarketCap` | app.py:67-71 | with positive total liabilities and the other inputs fixed, raising market cap never lowers the Z-score |
| `Scores.SameRatiosSameScore` | app.py:67-71 | two sets of figures with the same five ratios have the same score |
| `Scores.AltmanZScaleInvariant` | app.py:67-71 | multiplying every input by the same non-zero factor leaves the Z-score unchanged, since it is made of ratios only |
| `Styling.Band` | app.py:58 | safe exactly above 3, distress exactly below 1.8, grey exactly from 1.8 to 3 inclusive (the code's note leaves the endpoints in no band; the model puts them in grey, where `color_z` leaves them unstyled) |
| `Styling.ColorZ` | app.py:107-111 | green exactly for a number above 3, red exactly for a number below 1.8, no style for numbers in [1.8, 3] and for non-numbers |
| `Styling.ColorZFollowsBand` | app.py:107-111 | a numeric cell is green exactly in the safe band and red exactly in the distress band, and the two styles differ from each other and from no style |
| `Styling.BandMonotone` | app.py:58 | a higher Z-score never falls into a riskier band |
| `Analysis.Resolve` | app.py:35-65 | figures exist exactly when every lookup succeeds; each figure (cash, debt, both periods, net income, operating cash flow, working capital, total assets, retained earnings, EBIT, total liabilities) is the resolver's answer for its label list at the latest period; market cap and revenue come from the info fields |
| `Analysis.ResolveDefined` | app.py:35-65 | on statements a data frame can represent, resolving never fails |
| `Analysis.Score` | app.py:67-83 | a row exists exactly when both Z-score divisors are non-zero; it carries the given symbol, the Altman Z-score, ROE and margin times 100, debt/equity over 100, the dividend yield, the F-score label of net income and cash flow, and the Cash/Debt cells of the annual and quarterly cash and debt |
| `Analysis.AnalyzeSnapshot` | app.py:22-85 | a row exists exactly when retrieval succeeded, the annual balance sheet and income statement are present and not empty, no lookup fails and both Z-score divisors are non-zero; its Z-score, F-score label, Cash/Debt, ROE, margin, debt/equity and yield cells are the scores of the latest-period figures |
| `Analysis.AnalyzeSnapshotSucceeds` | app.py:22-85 | rectangular statements with a non-empty balance sheet and income statement and non-zero total assets and liabilities always yield a row |
| `Analysis.AnalyzeEfficiency` | app.py:18-20 | the provider is asked for the normalised symbol; a row exists exactly when that snapshot passes every check, it keeps the symbol as given, and its Z-score, F-score, Cash/Debt, ROE, margin, debt/equity and yield cells are those of that snapshot |
| `Analysis.AnalyzeSnapshotTicker` | app.py:73-74 | only the ticker cell of a row depends on the symbol |
| `Analysis.AnalyzeDependsOnNormalizedSymbol` | app.py:18-20 | two symbols with the same normalisation succeed or fail together and give the same row apart from the ticker cell |
| `Batch.FindColumn` | app.py:92 | the position found is the first column with the name; None exactly when no column has it |
| `Batch.TickerColumn` | app.py:92 | the column named `Ticker` when there is one, else the first column; none only for a table without columns |
| `Batch.DropNulls` | app.py:93 | the present cells: a value is kept exactly when some cell holds it |
| `Batch.DropNullsAppend` | app.py:93 | dropping nulls splits over any cut of the column, so the present cells keep their order and multiplicity |
| `Batch.DropNullsKeepsOrder` | app.py:93 | a value first appearing earlier among the present cells first appears earlier in the column |
| `Batch.Dedup` | app.py:93 | each value of the input exactly once, nothing else |
| `Batch.DedupKeepsFirstOccurrenceOrder` | app.py:93 | the kept values are ordered by their first occurrence in the input |
| `Batch.UniqueTickers` | app.py:93 | the tickers are the distinct present cells, computed by a loop that agrees with the reference deduplication |
| `Batch.Collect` | app.py:98-100 | never more rows than tickers |
| `Batch.RunBatch` | app.py:96-100 | the loop's rows are exactly the collected successful analyses |
| `Batch.CollectAppend` | app.py:98-100 | the rows of a split ticker list are the rows of the first part followed by those of the second |
| `Batch.FailedTickerSkipped` | app.py:84-100 | a failing ticker adds no row and the tickers after it still contribute theirs |
| `Batch.CollectRows` | app.py:98-100 | every row is the analysis of some ticker, and no row is lost exactly when every ticker succeeds |
| `Batch.Succeeded` | app.py:98-100 | exactly the input tickers whose analysis succeeds: every kept ticker succeeded and every successful ticker is kept |
| `Batch.CollectFollowsSucceeded` | app.py:98-100 | row k is the analysis of the k-th successful ticker, so the rows are the input-ordered subsequence of successful analyses |
| `Batch.SucceededDistinct` | app.py:93-100 | distinct tickers stay distinct after failures are dropped |
| `Batch.SucceededKeepsOrder` | app.py:98-100 | any order the tickers are in is kept by the successful ones |
| `App.TickersOf` | app.py:92-93 | the analysed tickers are distinct, are exactly the present cells of the ticker column, and are ordered by first occurrence in that column; none for a table without columns |
| `App.AnalyzeUpload` | app.py:90-100 | the rows are the collected successful analyses of the unique tickers; never more rows than tickers; row tickers are pairwise different cells of the ticker column, ordered by first occurrence |

## Left out

- Data retrieval (app.py:20-24, 38): the provider is the parameter `fetch`; a raising call is `None`.
- Info-mapping lookups with defaults (app.py:29-32, 63, 65), including `or 0` for a missing dividend yield: `Info` holds the values after the defaults.
- Streamlit presentation (app.py:5-8, 88-123 apart from `color_z`): page setup, uploader, button, progress bar, styled table, legend and the "no data" message.
- CSV parsing (app.py:91): the model starts from parsed columns with `None` for empty cells.
- Rounding to two decimals and the four-decimal dividend-yield text (app.py:75-82): report values are exact reals.
- Floating-point behaviour: NaN cells, infinities and float comparison are not modelled; arithmetic is over exact reals.
- The Beneish placeholder (app.py:51-55): the constant `"N/D"` is never reported and has no logic.
- Analysis.AnalyzeSnapshot: a zero total-assets or total-liabilities figure fails the ticker. In the code, a label present with a numpy 0.0 gives an infinite or NaN score, while a missing label (the resolver's integer 0) raises ZeroDivisionError, because market cap and revenue are plain Python numbers, and so skips the ticker.
- Symbol.NormalizeSymbol: strips ASCII whitespace and upper-cases ASCII letters only; Python also strips Unicode whitespace and upper-cases non-ASCII letters, sometimes changing the length.
- Statement.GetVal: the period index is a natural number, so Python's negative `iloc` positions are not modelled (every caller passes 0); labels are map keys, so a table with a repeated label is not modelled.
- Python exception behaviour beyond "any failure gives no row" (app.py:84-85), such as a numeric ticker cell failing at `strip()`: ticker cells are strings.
- Batch.TickerColumn: a table without columns gives None and no rows, whereas the script stops with an error (reading such a file already fails at app.py:91).
- Analysis.AnalyzeDependsOnNormalizedSymbol: relies on `fetch` being a fixed function of the symbol; a provider whose answers change between calls is not modelled.

=== FILE: analysis.dfy ===
/** `analyze_efficiency` (app.py, lines 18-85): resolve the line items of one
    ticker's statements and assemble its report row. The data provider is a
    parameter: `fetch` maps a provider symbol to the ticker's snapshot, or to
    None when retrieval raises. */
module Analysis {
  import opened Wrappers
  import opened Statement
  import opened Symbol
  import opened Scores

  /** The scalar descriptors read from the provider's info mapping, with the
      defaults of app.py already applied. `debtToEquity` is in percent. */
  datatype Info = Info(
    returnOnEquity: real,
    profitMargin: real,
    dividendYield: real,
    debtToEquity: real,
    marketCap: real,
    totalRevenue: real)

  /** What the provider returns for one symbol. */
  datatype Snapshot = Snapshot(
    info: Info,
    balance: Statement,
    income: Statement,
    cashflow: Statement,
    quarterlyBalance: Statement)

  /** One row of the results table, before rounding. */
  datatype Report = Report(
    ticker: string,
    roePercent: real,
    marginPercent: real,
    debtToEquity: real,
    dividendYield: real,
    altmanZ: real,
    piotroski: string,
    cashDebtAnnual: CashDebt,
    cashDebtQuarterly: CashDebt)

  const CashLabels: seq<string> := ["Cash And Cash Equivalents", "Cash Cash Equivalents And Short Term Investments"]
  const QuarterCashLabels: seq<string> := ["Cash And Cash Equivalents"]
  const DebtLabels: seq<string> := ["Total Debt"]
  const NetIncomeLabels: seq<string> := ["Net Income"]
  const CashFlowLabels: seq<string> := ["Operating Cash Flow"]
  const WorkingCapitalLabels: seq<string> := ["Working Capital", "Net Working Capital"]
  const AssetsLabels: seq<string> := ["Total Assets"]
  const RetainedEarningsLabels: seq<string> := ["Retained Earnings"]
  const EbitLabels: seq<string> := ["EBIT"]
  const LiabilitiesLabels: seq<string> := ["Total Liabilities Net Minority Interest", "Total Liabilities"]

  /** A mandatory statement must be present and not empty. */
  predicate Usable(s: Statement) {
    s.Some? && !IsEmpty(s.value)
  }

  /** The line items of the most recent period that the scores need. */
  datatype Figures = Figures(
    cashAnnual: real,
    debtAnnual: real,
    cashQuarter: real,
    debtQuarter: real,
    netIncome: real,
    operatingCashFlow: real,
    z: ZInputs)

  /** Every lookup the analysis makes at the latest period succeeds. */
  predicate Readable(snap: Snapshot) {
    && GetVal(snap.balance, CashLabels, 0).Some?
    && GetVal(snap.balance, DebtLabels, 0).Some?
    && GetVal(snap.quarterlyBalance, QuarterCashLabels, 0).Some?
    && GetVal(snap.quarterlyBalance, DebtLabels, 0).Some?
    && GetVal(snap.income, NetIncomeLabels, 0).Some?
    && GetVal(snap.cashflow, CashFlowLabels, 0).Some?
    && GetVal(snap.balance, WorkingCapitalLabels, 0).Some?
    && GetVal(snap.balance, AssetsLabels, 0).Some?
    && GetVal(snap.balance, RetainedEarningsLabels, 0).Some?
    && GetVal(snap.income, EbitLabels, 0).Some?
    && GetVal(snap.balance, LiabilitiesLabels, 0).Some?
  }

  /** The latest-period value of a line item, 0 when the lookup raises. */
  function Latest(s: Statement, labels: seq<string>): real {
    match GetVal(s, labels, 0)
    case Some(v) => v
    case None => 0.0
  }

  /** The Z-score inputs of a snapshot: balance-sheet and income figures at
      the latest period, market cap and revenue from the info fields. */
  function LatestZ(snap: Snapshot): ZInputs {
    ZInputs(
      Latest(snap.balance, AssetsLabels),
      Latest(snap.balance, WorkingCapitalLabels),
      Latest(snap.balance, RetainedEarningsLabels),
      Latest(snap.income, EbitLabels),
      snap.info.marketCap,
      Latest(snap.balance, LiabilitiesLabels),
      snap.info.totalRevenue)
  }

  /** Resolves every line item at period 0; None exactly when a lookup raises. */
  function Resolve(snap: Snapshot): (r: Option<Figures>)
    ensures r.Some? <==> Readable(snap)
    ensures r.Some? ==> GetVal(snap.balance, CashLabels, 0) == Some(r.value.cashAnnual)
    ensures r.Some? ==> GetVal(snap.balance, DebtLabels, 0) == Some(r.value.debtAnnual)
    ensures r.Some? ==> GetVal(snap.quarterlyBalance, QuarterCashLabels, 0) == Some(r.value.cashQuarter)
    ensures r.Some? ==> GetVal(snap.quarterlyBalance, DebtLabels, 0) == Some(r.value.debtQuarter)
    ensures r.Some? ==> GetVal(snap.income, NetIncomeLabels, 0) == Some(r.value.netIncome)
    ensures r.Some? ==> GetVal(snap.cashflow, CashFlowLabels, 0) == Some(r.value.operatingCashFlow)
    ensures r.Some? ==> GetVal(snap.balance, AssetsLabels, 0) == Some(r.value.z.totalAssets)
    ensures r.Some? ==> GetVal(snap.balance, WorkingCapitalLabels, 0) == Some(r.value.z.workingCapital)
    ensures r.Some? ==> GetVal(snap.balance, RetainedEarningsLabels, 0) == Some(r.value.z.retainedEarnings)
    ensures r.Some? ==> GetVal(snap.income, EbitLabels, 0) == Some(r.value.z.ebit)
    ensures r.Some? ==> GetVal(snap.balance, LiabilitiesLabels, 0) == Some(r.value.z.totalLiabilities)
    ensures r.Some? ==> r.value.z.marketCap == snap.info.marketCap && r.value.z.revenue == snap.info.totalRevenue
  {
    var cashA := GetVal(snap.balance, CashLabels, 0);
    var debtA := GetVal(snap.balance, DebtLabels, 0);
    var cashQ := GetVal(snap.quarterlyBalance, QuarterCashLabels, 0);
    var debtQ := GetVal(snap.quarterlyBalance, DebtLabels, 0);
    var ni := GetVal(snap.income, NetIncomeLabels, 0);
    var ocf := GetVal(snap.cashflow, CashFlowLabels, 0);
    var wc := GetVal(snap.balance, WorkingCapitalLabels, 0);
    var ta := GetVal(snap.balance, AssetsLabels, 0);
    var re := GetVal(snap.balance, RetainedEarningsLabels, 0);
    var ebit := GetVal(snap.income, EbitLabels, 0);
    var tl := GetVal(snap.balance, LiabilitiesLabels, 0);
    if cashA.None? || debtA.None? || cashQ.None? || debtQ.None? || ni.None? || ocf.None?
       || wc.None? || ta.None? || re.None? || ebit.None? || tl.None?
    then None
    else
      Some(Figures(cashA.value, debtA.value, cashQ.value, debtQ.value, ni.value, ocf.value,
        ZInputs(ta.value, wc.value, re.value, ebit.value, snap.info.marketCap, tl.value, snap.info.totalRevenue)))
  }

  /** On statements a data frame can represent, no lookup raises. */
  lemma ResolveDefined(snap: Snapshot)
    requires WellFormed(snap.balance) && WellFormed(snap.income)
    requires WellFormed(snap.cashflow) && WellFormed(snap.quarterlyBalance)
    ensures Resolve(snap).Some?
  {
    GetValLatestDefined(snap.balance, CashLabels);
    GetValLatestDefined(snap.balance, DebtLabels);
    GetValLatestDefined(snap.quarterlyBalance, QuarterCashLabels);
    GetValLatestDefined(snap.quarterlyBalance, DebtLabels);
    GetValLatestDefined(snap.income, NetIncomeLabels);
    GetValLatestDefined(snap.cashflow, CashFlowLabels);
    GetValLatestDefined(snap.balance, WorkingCapitalLabels);
    GetValLatestDefined(snap.balance, AssetsLabels);
    GetValLatestDefined(snap.balance, RetainedEarningsLabels);
    GetValLatestDefined(snap.income, EbitLabels);
    GetValLatestDefined(snap.balance, LiabilitiesLabels);
  }

  /** The report row built from resolved figures; None when a Z-score divisor
      is zero. Percentages are scaled by 100, debt/equity back from percent. */
  function Score(symbol: string, info: Info, fig: Figures): (r: Option<Report>)
    ensures r.Some? <==> ZDefined(fig.z)
    ensures r.Some? ==> r.value.ticker == symbol && r.value.altmanZ == AltmanZ(fig.z)
    ensures r.Some? ==> r.value.roePercent == 100.0 * info.returnOnEquity
    ensures r.Some? ==> r.value.marginPercent == 100.0 * info.profitMargin
    ensures r.Some? ==> r.value.debtToEquity * 100.0 == info.debtToEquity
    ensures r.Some? ==> r.value.dividendYield == info.dividendYield
    ensures r.Some? ==> r.value.piotroski == FScoreLabel(FScore(fig.netIncome, fig.operatingCashFlow))
    ensures r.Some? ==> r.value.cashDebtAnnual == CashDebtRatio(fig.cashAnnual, fig.debtAnnual)
    ensures r.Some? ==> r.value.cashDebtQuarterly == CashDebtRatio(fig.cashQuarter, fig.debtQuarter)
  {
    if !ZDefined(fig.z) then None
    else
      Some(Report(
        symbol,
        info.returnOnEquity * 100.0,
        info.profitMargin * 100.0,
        info.debtToEquity / 100.0,
        info.dividendYield,
        AltmanZ(fig.z),
        FScoreLabel(FScore(fig.netIncome, fig.operatingCashFlow)),
        CashDebtRatio(fig.cashAnnual, fig.debtAnnual),
        CashDebtRatio(fig.cashQuarter, fig.debtQuarter)))
  }

  /** The body of `analyze_efficiency` once the provider has answered. A row
      exists exactly when retrieval succeeded, the annual balance sheet and
      income statement are present and not empty, no lookup raises and both
      Z-score divisors are non-zero; its cells are the scores of the
      statements' latest-period figures. */
  function AnalyzeSnapshot(symbol: string, fetched: Option<Snapshot>): (r: Option<Report>)
    ensures r.Some? <==>
      && fetched.Some?
      && Usable(fetched.value.balance) && Usable(fetched.value.income)
      && Readable(fetched.value)
      && ZDefined(LatestZ(fetched.value))
    ensures r.Some? ==> r.value.ticker == symbol
    ensures r.Some? ==> r.value.piotroski in {"0/4", "1/4", "2/4", "3/4"}
    ensures r.Some? ==>
      var snap := fetched.value;
      && ZDefined(LatestZ(snap))
      && r.value.altmanZ == AltmanZ(LatestZ(snap))
      && r.value.piotroski == FScoreLabel(FScore(Latest(snap.income, NetIncomeLabels), Latest(snap.cashflow, CashFlowLabels)))
      && r.value.cashDebtAnnual == CashDebtRatio(Latest(snap.balance, CashLabels), Latest(snap.balance, DebtLabels))
      && r.value.cashDebtQuarterly == CashDebtRatio(Latest(snap.quarterlyBalance, QuarterCashLabels), Latest(snap.quarterlyBalance, DebtLabels))
      && r.value.roePercent == 100.0 * snap.info.returnOnEquity
      && r.value.marginPercent == 100.0 * snap.info.profitMargin
      && r.value.debtToEquity * 100.0 == snap.info.debtToEquity
      && r.value.dividendYield == snap.info.dividendYield
  {
    match fetched
    case None => None
    case Some(snap) =>
      if !Usable(snap.balance) || !Usable(snap.income) then None
      else
        match Resolve(snap)
        case None => None
        case Some(fig) =>
          assert fig.z == LatestZ(snap);
          FScoreLabelBelowDenominator(fig.netIncome, fig.operatingCashFlow);
          Score(symbol, snap.info, fig)
  }

  /** A ticker whose statements come as data frames, with non-empty annual
      balance sheet and income statement and non-zero total assets and
      total liabilities, always yields a row. */
  lemma AnalyzeSnapshotSucceeds(symbol: string, snap: Snapshot)
    requires Usable(snap.balance) && Usable(snap.income)
    requires WellFormed(snap.balance) && WellFormed(snap.income)
    requires WellFormed(snap.cashflow) && WellFormed(snap.quarterlyBalance)
    requires GetVal(snap.balance, AssetsLabels, 0) != Some(0.0)
    requires GetVal(snap.balance, LiabilitiesLabels, 0) != Some(0.0)
    ensures AnalyzeSnapshot(symbol, Some(snap)).Some?
  {
    ResolveDefined(snap);
  }

  /** `analyze_efficiency(symbol)`: the provider is asked for the normalised
      symbol, while the row keeps the symbol as given; whether a row exists
      and what it holds depend on that one snapshot. */
  function AnalyzeEfficiency(symbol: string, fetch: string -> Option<Snapshot>): (r: Option<Report>)
    ensures r.Some? ==> r.value.ticker == symbol
    ensures r.Some? <==>
      var fetched := fetch(NormalizeSymbol(symbol));
      && fetched.Some?
      && Usable(fetched.value.balance) && Usable(fetched.value.income)
      && Readable(fetched.value)
      && ZDefined(LatestZ(fetched.value))
    ensures r.Some? ==>
      var snap := fetch(NormalizeSymbol(symbol)).value;
      && ZDefined(LatestZ(snap))
      && r.value.altmanZ == AltmanZ(LatestZ(snap))
      && r.value.piotroski == FScoreLabel(FScore(Latest(snap.income, NetIncomeLabels), Latest(snap.cashflow, CashFlowLabels)))
      && r.value.cashDebtAnnual == CashDebtRatio(Latest(snap.balance, CashLabels), Latest(snap.balance, DebtLabels))
      && r.value.cashDebtQuarterly == CashDebtRatio(Latest(snap.quarterlyBalance, QuarterCashLabels), Latest(snap.quarterlyBalance, DebtLabels))
      && r.value.roePercent == 100.0 * snap.info.returnOnEquity
      && r.value.marginPercent == 100.0 * snap.info.profitMargin
      && r.value.debtToEquity * 100.0 == snap.info.debtToEquity
      && r.value.dividendYield == snap.info.dividendYield
  {
    AnalyzeSnapshot(symbol, fetch(NormalizeSymbol(symbol)))
  }

  /** Only the ticker cell depends on the symbol itself. */
  lemma AnalyzeSnapshotTicker(s1: string, s2: string, fetched: Option<Snapshot>)
    ensures AnalyzeSnapshot(s1, fetched).Some? <==> AnalyzeSnapshot(s2, fetched).Some?
    ensures AnalyzeSnapshot(s1, fetched).Some? ==>
      AnalyzeSnapshot(s1, fetched).value.(ticker := s2) == AnalyzeSnapshot(s2, fetched).value
  {
  }

  /** Two spellings of the same provider symbol ("brk.b" and " BRK-B ")
      give the same row apart from the ticker cell. */
  lemma AnalyzeDependsOnNormalizedSymbol(s1: string, s2: string, fetch: string -> Option<Snapshot>)
    requires NormalizeSymbol(s1) == NormalizeSymbol(s2)
    ensures AnalyzeEfficiency(s1, fetch).Some? <==> AnalyzeEfficiency(s2, fetch).Some?
    ensures AnalyzeEfficiency(s1, fetch).Some? ==>
      AnalyzeEfficiency(s1, fetch).value.(ticker := s2) == AnalyzeEfficiency(s2, fetch).value
  {
    AnalyzeSnapshotTicker(s1, s2, fetch(NormalizeSymbol(s1)));
  }
}

=== FILE: app.dfy ===
/** The whole upload-and-analyse flow of app.py (lines 90-100): choose the
    ticker column, deduplicate, analyse each ticker against the provider and
    collect the rows that succeeded. */
module App {
  import opened Wrappers
  import opened Analysis
  import opened Batch

  /** `x` first occurs in the column before `y` does. */
  predicate CellOrder(cells: seq<Option<string>>, x: string, y: string) {
    Some(x) in cells && Some(y) in cells && FirstIndex(cells, Some(x)) < FirstIndex(cells, Some(y))
  }

  /** The tickers the batch analyses; None when the table has no column.
      They are the present cells of the ticker column, each once, in the
      order of their first occurrence in the column. */
  function TickersOf(table: seq<Column>): (r: Option<seq<string>>)
    ensures r.None? <==> |table| == 0
    ensures r.Some? ==> Distinct(r.value)
    ensures r.Some? ==> forall x :: x in r.value <==> Some(x) in TickerColumn(table).value.cells
    ensures r.Some? ==> forall i, j :: 0 <= i < j < |r.value| ==>
      CellOrder(TickerColumn(table).value.cells, r.value[i], r.value[j])
  {
    match TickerColumn(table)
    case None => None
    case Some(column) =>
      var present := DropNulls(column.cells);
      var r := Dedup(present);
      DedupKeepsFirstOccurrenceOrder(present);
      forall i, j | 0 <= i < j < |r|
        ensures CellOrder(column.cells, r[i], r[j])
      {
        DropNullsKeepsOrder(column.cells, r[i], r[j]);
      }
      Some(r)
  }

  /** The per-ticker analysis against one provider. */
  function Pipeline(fetch: string -> Option<Snapshot>): string -> Option<Report> {
    s => AnalyzeEfficiency(s, fetch)
  }

  /** Uploads a table and runs the batch. The rows are the successful
      analyses of the unique tickers, in ticker order: their tickers are
      pairwise different cells of the ticker column, ordered by first
      occurrence, and there are never more rows than unique tickers. */
  method AnalyzeUpload(table: seq<Column>, fetch: string -> Option<Snapshot>) returns (rows: Option<seq<Report>>)
    ensures rows.None? <==> |table| == 0
    ensures rows.Some? ==> rows.value == Collect(TickersOf(table).value, Pipeline(fetch))
    ensures rows.Some? ==> |rows.value| <= |TickersOf(table).value|
    ensures rows.Some? ==> forall i, j :: 0 <= i < j < |rows.value| ==> rows.value[i].ticker != rows.value[j].ticker
    ensures rows.Some? ==> forall i, j :: 0 <= i < j < |rows.value| ==>
      CellOrder(TickerColumn(table).value.cells, rows.value[i].ticker, rows.value[j].ticker)
    ensures rows.Some? ==> forall k :: 0 <= k < |rows.value| ==> Some(rows.value[k].ticker) in TickerColumn(table).value.cells
  {
    var column := TickerColumn(table);
    if column.None? {
      return None;
    }
    var cells := column.value.cells;
    var tickers := UniqueTickers(cells);
    assert tickers == TickersOf(table).value;
    var analyze := Pipeline(fetch);
    var results := RunBatch(tickers, analyze);
    CollectFollowsSucceeded(tickers, analyze);
    SucceededDistinct(tickers, analyze);
    var before := (x, y) => CellOrder(cells, x, y);
    assert Ordered(tickers, before);
    SucceededKeepsOrder(tickers, analyze, before);
    var good := Succeeded(tickers, analyze);
    forall k | 0 <= k < |results|
      ensures results[k].ticker == good[k]
    {
      assert analyze(good[k]) == Some(results[k]);
    }
    forall i, j | 0 <= i < j < |results|
      ensures CellOrder(cells, results[i].ticker, results[j].ticker)
    {
      assert before(good[i], good[j]);
    }
    return Some(results);
  }
}

=== FILE: batch.dfy ===
/** The batch driver (app.py, lines 90-100): pick the ticker column of the
    uploaded table, drop empty cells, keep the first occurrence of each
    ticker, analyse them in order and keep the rows that succeeded. */
module Batch {
  import opened Wrappers

  /** One column of the uploaded table; a None cell is a missing value. */
  datatype Column = Column(name: string, cells: seq<Option<string>>)

  /** Position of the first column with the given name. */
  function FindColumn(table: seq<Column>, name: string): (r: Option<nat>)
    ensures r.None? <==> forall i :: 0 <= i < |table| ==> table[i].name != name
    ensures r.Some? ==> r.value < |table| && table[r.value].name == name
    ensures r.Some? ==> forall i :: 0 <= i < r.value ==> table[i].name != name
  {
    if |table| == 0 then None
    else if table[0].name == name then Some(0)
    else
      match FindColumn(table[1..], name)
      case None => None
      case Some(j) => Some(j + 1)
  }

  /** The column named "Ticker" when there is one, else the first column;
      None for a table without columns. */
  function TickerColumn(table: seq<Column>): (r: Option<Column>)
    ensures r.None? <==> |table| == 0
    ensures r.Some? ==> r.value in table
    ensures (exists i :: 0 <= i < |table| && table[i].name == "Ticker") ==> r.Some? && r.value.name == "Ticker"
    ensures (forall i :: 0 <= i < |table| ==> table[i].name != "Ticker") && |table| > 0 ==> r == Some(table[0])
  {
    match FindColumn(table, "Ticker")
    case Some(i) => Some(table[i])
    case None => if |table| == 0 then None else Some(table[0])
  }

  /** `dropna()`: the present cells, in order. */
  function DropNulls(cells: seq<Option<string>>): (r: seq<string>)
    ensures |r| <= |cells|
    ensures forall x :: x in r <==> Some(x) in cells
  {
    if |cells| == 0 then []
    else
      var rest := DropNulls(cells[..|cells| - 1]);
      assert cells == cells[..|cells| - 1] + [cells[|cells| - 1]];
      match cells[|cells| - 1]
      case None => rest
      case Some(x) => rest + [x]
  }

  /** Dropping nulls works cell by cell: it splits over any cut of the column. */
  lemma {:induction false} DropNullsAppend(a: seq<Option<string>>, b: seq<Option<string>>)
    ensures DropNulls(a + b) == DropNulls(a) + DropNulls(b)
  {
    if |b| == 0 {
      assert a + b == a;
    } else {
      var n := |b| - 1;
      assert (a + b)[..|a + b| - 1] == a + b[..n];
      assert (a + b)[|a + b| - 1] == b[n];
      DropNullsAppend(a, b[..n]);
    }
  }

  /** A value that first appears earlier among the present cells first
      appears earlier in the column itself. */
  lemma {:induction false} DropNullsKeepsOrder(cells: seq<Option<string>>, x: string, y: string)
    requires x in DropNulls(cells) && y in DropNulls(cells)
    requires FirstIndex(DropNulls(cells), x) < FirstIndex(DropNulls(cells), y)
    ensures Some(x) in cells && Some(y) in cells
    ensures FirstIndex(cells, Some(x)) < FirstIndex(cells, Some(y))
  {
    var n := |cells| - 1;
    var init := cells[..n];
    var d, di := DropNulls(cells), DropNulls(init);
    assert cells == init + [cells[n]];
    if x in di {
      FirstIndexOfPrefix(d, |di|, x);
      assert d[..|di|] == di;
      FirstIndexOfPrefix(cells, n, Some(x));
      if y in di {
        FirstIndexOfPrefix(d, |di|, y);
        FirstIndexOfPrefix(cells, n, Some(y));
        DropNullsKeepsOrder(init, x, y);
      } else {
        assert Some(y) !in init;
        assert cells[n] == Some(y);
        assert FirstIndex(cells, Some(y)) == n;
      }
    }
  }

  predicate Distinct(s: seq<string>) {
    forall i, j :: 0 <= i < j < |s| ==> s[i] != s[j]
  }

  /** `unique()`: each value once, at the place of its first occurrence. An
      element is kept exactly when it does not occur earlier in the input. */
  function Dedup(xs: seq<string>): (r: seq<string>)
    ensures forall x :: x in r <==> x in xs
    ensures Distinct(r)
    ensures |r| <= |xs|
  {
    if |xs| == 0 then []
    else
      var init := xs[..|xs| - 1];
      var last := xs[|xs| - 1];
      assert xs == init + [last];
      var rest := Dedup(init);
      if last in init then rest else rest + [last]
  }

  /** Index of the first occurrence of a value. */
  function FirstIndex<T(==)>(xs: seq<T>, x: T): (i: nat)
    requires x in xs
    ensures i < |xs| && xs[i] == x && x !in xs[..i]
  {
    if xs[0] == x then 0
    else
      var i := FirstIndex(xs[1..], x);
      assert xs[1..][..i] == xs[1..i + 1];
      i + 1
  }

  lemma FirstIndexOfPrefix<T>(xs: seq<T>, n: nat, x: T)
    requires n <= |xs| && x in xs[..n]
    ensures x in xs && FirstIndex(xs, x) == FirstIndex(xs[..n], x)
  {
    var i := FirstIndex(xs[..n], x);
    var k := FirstIndex(xs, x);
    assert xs[..n][..i] == xs[..i];
  }

  /** The kept values appear in the order of their first occurrences. */
  lemma {:induction false} DedupKeepsFirstOccurrenceOrder(xs: seq<string>)
    ensures forall i, j :: 0 <= i < j < |Dedup(xs)| ==>
      FirstIndex(xs, Dedup(xs)[i]) < FirstIndex(xs, Dedup(xs)[j])
  {
    if |xs| > 0 {
      var n := |xs| - 1;
      var init, last := xs[..n], xs[n];
      var rest := Dedup(init);
      var r := Dedup(xs);
      DedupKeepsFirstOccurrenceOrder(init);
      forall k | 0 <= k < |rest|
        ensures FirstIndex(xs, rest[k]) == FirstIndex(init, rest[k]) < n
      {
        FirstIndexOfPrefix(xs, n, rest[k]);
      }
      if last in init {
        assert r == rest;
      } else {
        assert r == rest + [last];
        var k := FirstIndex(xs, last);
        assert k == n;
        forall i, j | 0 <= i < j < |r|
          ensures FirstIndex(xs, r[i]) < FirstIndex(xs, r[j])
        {
          assert r[i] == rest[i];
          if j < |rest| {
            assert r[j] == rest[j];
          } else {
            assert r[j] == last;
          }
        }
      }
    }
  }

  /** `dropna().unique().tolist()`: the tickers to analyse. */
  method UniqueTickers(cells: seq<Option<string>>) returns (tickers: seq<string>)
    ensures tickers == Dedup(DropNulls(cells))
    ensures Distinct(tickers)
    ensures forall x :: x in tickers <==> Some(x) in cells
  {
    var present := DropNulls(cells);
    var seen: set<string> := {};
    tickers := [];
    var i := 0;
    while i < |present|
      invariant 0 <= i <= |present|
      invariant tickers == Dedup(present[..i])
      invariant seen == set x | x in present[..i]
    {
      var x := present[i];
      assert present[..i + 1] == present[..i] + [x];
      assert present[..i + 1][..i] == present[..i];
      if x !in seen {
        tickers := tickers + [x];
      }
      seen := seen + {x};
      i := i + 1;
    }
    assert present[..i] == present;
  }

  /** The rows of the successful analyses, in ticker order. */
  function Collect<R>(tickers: seq<string>, analyze: string -> Option<R>): (rows: seq<R>)
    ensures |rows| <= |tickers|
  {
    if |tickers| == 0 then []
    else
      var n := |tickers| - 1;
      var rest := Collect(tickers[..n], analyze);
      match analyze(tickers[n])
      case None => rest
      case Some(row) => rest + [row]
  }

  /** The results loop: every ticker is analysed, a failure (None) is
      skipped and the loop goes on with the next ticker. */
  method RunBatch<R>(tickers: seq<string>, analyze: string -> Option<R>) returns (results: seq<R>)
    ensures results == Collect(tickers, analyze)
    ensures |results| <= |tickers|
  {
    results := [];
    var i := 0;
    while i < |tickers|
      invariant 0 <= i <= |tickers|
      invariant results == Collect(tickers[..i], analyze)
    {
      var res := analyze(tickers[i]);
      assert tickers[..i + 1][..i] == tickers[..i];
      if res.Some? {
        results := results + [res.value];
      }
      i := i + 1;
    }
    assert tickers[..i] == tickers;
  }

  /** The batch splits over any cut of the ticker list: what one part yields
      does not depend on the other. */
  lemma {:induction false} CollectAppend<R>(a: seq<string>, b: seq<string>, analyze: string -> Option<R>)
    ensures Collect(a + b, analyze) == Collect(a, analyze) + Collect(b, analyze)
  {
    if |b| == 0 {
      assert a + b == a;
    } else {
      var n := |b| - 1;
      assert (a + b)[..|a + b| - 1] == a + b[..n];
      assert (a + b)[|a + b| - 1] == b[n];
      CollectAppend(a, b[..n], analyze);
    }
  }

  /** A failed ticker contributes nothing and does not stop the tickers
      after it. */
  lemma FailedTickerSkipped<R>(a: seq<string>, t: string, b: seq<string>, analyze: string -> Option<R>)
    requires analyze(t).None?
    ensures Collect(a + [t] + b, analyze) == Collect(a, analyze) + Collect(b, analyze)
  {
    CollectAppend(a + [t], b, analyze);
    CollectAppend(a, [t], analyze);
    assert Collect([t], analyze) == [] by {
      assert [t][..0] == [];
    }
  }

  /** Every row comes from some ticker's successful analysis, and all
      tickers succeed exactly when no row is lost. */
  lemma {:induction false} CollectRows<R>(tickers: seq<string>, analyze: string -> Option<R>)
    ensures forall row :: row in Collect(tickers, analyze) ==>
      exists i :: 0 <= i < |tickers| && analyze(tickers[i]) == Some(row)
    ensures |Collect(tickers, analyze)| == |tickers| <==>
      forall i :: 0 <= i < |tickers| ==> analyze(tickers[i]).Some?
  {
    if |tickers| > 0 {
      var n := |tickers| - 1;
      var init := tickers[..n];
      CollectRows(init, analyze);
      forall row | row in Collect(tickers, analyze)
        ensures exists i :: 0 <= i < |tickers| && analyze(tickers[i]) == Some(row)
      {
        if row in Collect(init, analyze) {
          var i :| 0 <= i < |init| && analyze(init[i]) == Some(row);
          assert tickers[i] == init[i];
        } else {
          assert analyze(tickers[n]) == Some(row);
        }
      }
      if forall i :: 0 <= i < |tickers| ==> analyze(tickers[i]).Some? {
        assert forall i :: 0 <= i < |init| ==> analyze(init[i]).Some? by {
          forall i | 0 <= i < |init| ensures analyze(init[i]).Some? {
            assert init[i] == tickers[i];
          }
        }
      } else if analyze(tickers[n]).Some? {
        var k :| 0 <= k < |tickers| && analyze(tickers[k]).None?;
        assert init[k] == tickers[k];
      }
    }
  }

  /** The tickers whose analysis succeeded, in input order. */
  function Succeeded<R>(tickers: seq<string>, analyze: string -> Option<R>): (s: seq<string>)
    ensures |s| <= |tickers|
    ensures forall x :: x in s ==> x in tickers && analyze(x).Some?
    ensures forall i :: 0 <= i < |tickers| && analyze(tickers[i]).Some? ==> tickers[i] in s
  {
    if |tickers| == 0 then []
    else
      var n := |tickers| - 1;
      var rest := Succeeded(tickers[..n], analyze);
      if analyze(tickers[n]).Some? then rest + [tickers[n]] else rest
  }

  /** Row k of the batch is the analysis of the k-th successful ticker: the
      result is the input-ordered subsequence of successful analyses. */
  lemma {:induction false} CollectFollowsSucceeded<R>(tickers: seq<string>, analyze: string -> Option<R>)
    ensures |Collect(tickers, analyze)| == |Succeeded(tickers, analyze)|
    ensures forall k :: 0 <= k < |Succeeded(tickers, analyze)| ==>
      analyze(Succeeded(tickers, analyze)[k]) == Some(Collect(tickers, analyze)[k])
  {
    if |tickers| > 0 {
      var n := |tickers| - 1;
      CollectFollowsSucceeded(tickers[..n], analyze);
    }
  }

  /** Filtering keeps distinct tickers distinct. */
  lemma {:induction false} SucceededDistinct<R>(tickers: seq<string>, analyze: string -> Option<R>)
    requires Distinct(tickers)
    ensures Distinct(Succeeded(tickers, analyze))
  {
    if |tickers| > 0 {
      var n := |tickers| - 1;
      var init := tickers[..n];
      assert Distinct(init);
      SucceededDistinct(init, analyze);
      assert tickers[n] !in init;
    }
  }

  /** Every earlier element stands in relation `before` to every later one. */
  predicate Ordered(s: seq<string>, before: (string, string) -> bool) {
    forall i, j :: 0 <= i < j < |s| ==> before(s[i], s[j])
  }

  /** Dropping the failed tickers keeps the survivors in their input order. */
  lemma {:induction false} SucceededKeepsOrder<R>(tickers: seq<string>, analyze: string -> Option<R>, before: (string, string) -> bool)
    requires Ordered(tickers, before)
    ensures Ordered(Succeeded(tickers, analyze), before)
  {
    if |tickers| > 0 {
      var n := |tickers| - 1;
      var init := tickers[..n];
      assert Ordered(init, before);
      SucceededKeepsOrder(init, analyze, before);
      var rest := Succeeded(init, analyze);
      forall k | 0 <= k < |rest| ensures before(rest[k], tickers[n]) {
        assert rest[k] in rest;
        var i :| 0 <= i < |init| && init[i] == rest[k];
        assert tickers[i] == init[i];
      }
    }
  }
}

=== FILE: scores.dfy ===
/** The three scores computed per ticker (app.py, lines 42-82): the simplified
    Piotroski F-score, the Altman Z-score and the Cash/Debt ratio. All
    arithmetic is over exact reals. */
module Scores {

  /** Simplified Piotroski F-score: one point each for positive net income,
      positive operating cash flow, and operating cash flow above net income. */
  function FScore(netIncome: real, operatingCashFlow: real): (f: nat)
    ensures f <= 3
    ensures f == 3 <==> netIncome > 0.0 && operatingCashFlow > netIncome
    ensures f == 0 <==> netIncome <= 0.0 && operatingCashFlow <= netIncome
  {
    (if netIncome > 0.0 then 1 else 0)
    + (if operatingCashFlow > 0.0 then 1 else 0)
    + (if operatingCashFlow > netIncome then 1 else 0)
  }

  /** With net income fixed, more operating cash flow never lowers the score. */
  lemma FScoreMonotoneInCashFlow(netIncome: real, ocf: real, ocf': real)
    requires ocf <= ocf'
    ensures FScore(netIncome, ocf) <= FScore(netIncome, ocf')
  {
  }

  /** Decimal digits of a natural number, most significant first, as Python's
      `str(int)` writes them. */
  function Decimal(n: nat): (s: string)
    ensures 1 <= |s|
    ensures forall i :: 0 <= i < |s| ==> '0' <= s[i] <= '9'
    ensures n < 10 <==> |s| == 1
    ensures |s| == 1 || s[0] != '0'
  {
    if n < 10 then [('0' as int + n) as char]
    else Decimal(n / 10) + [('0' as int + n % 10) as char]
  }

  /** The value of a string of decimal digits; the inverse of Decimal. */
  function DigitsValue(s: string): int
  {
    if |s| == 0 then 0 else DigitsValue(s[..|s| - 1]) * 10 + (s[|s| - 1] as int - '0' as int)
  }

  lemma {:induction false} DecimalRoundTrip(n: nat)
    ensures DigitsValue(Decimal(n)) == n
  {
    if n >= 10 {
      var s := Decimal(n);
      assert s[..|s| - 1] == Decimal(n / 10);
      DecimalRoundTrip(n / 10);
    }
  }

  /** The text shown in the "Piotroski (4pt)" column: the count over 4. */
  function FScoreLabel(f: nat): (s: string)
    ensures |s| >= 3 && s[|s| - 2..] == "/4"
    ensures DigitsValue(s[..|s| - 2]) == f
    ensures |s| == 3 || s[0] != '0'
    ensures forall i :: 0 <= i < |s| - 2 ==> '0' <= s[i] <= '9'
  {
    var d := Decimal(f);
    DecimalRoundTrip(f);
    assert (d + "/4")[..|d|] == d;
    d + "/4"
  }

  /** The label is always one of 0/4 .. 3/4: the score counts three
      criteria, so it never reaches the displayed denominator. */
  lemma FScoreLabelBelowDenominator(netIncome: real, operatingCashFlow: real)
    ensures FScoreLabel(FScore(netIncome, operatingCashFlow)) in {"0/4", "1/4", "2/4", "3/4"}
    ensures FScoreLabel(FScore(netIncome, operatingCashFlow)) != "4/4"
  {
    var f := FScore(netIncome, operatingCashFlow);
    assert FScoreLabel(f) == Decimal(f) + "/4";
    assert Decimal(f) == [('0' as int + f) as char];
    if f == 0 { assert Decimal(f) == "0"; assert FScoreLabel(f) == "0/4"; }
    else if f == 1 { assert Decimal(f) == "1"; assert FScoreLabel(f) == "1/4"; }
    else if f == 2 { assert Decimal(f) == "2"; assert FScoreLabel(f) == "2/4"; }
    else { assert Decimal(f) == "3"; assert FScoreLabel(f) == "3/4"; }
  }

  /** The Cash/Debt cell: a ratio when there is positive debt, "No Debt" otherwise. */
  datatype CashDebt = Ratio(value: real) | NoDebt

  /** Cash over debt, or NoDebt when the debt is not positive. */
  function CashDebtRatio(cash: real, debt: real): (r: CashDebt)
    ensures r.NoDebt? <==> debt <= 0.0
    ensures r.Ratio? ==> r.value * debt == cash
    ensures r.Ratio? ==> (r.value > 1.0 <==> cash > debt)
    ensures r.Ratio? ==> (r.value >= 0.0 <==> cash >= 0.0)
  {
    if debt > 0.0 then Ratio(cash / debt) else NoDebt
  }

  /** The raw figures behind the Altman Z-score of one company. */
  datatype ZInputs = ZInputs(
    totalAssets: real,
    workingCapital: real,
    retainedEarnings: real,
    ebit: real,
    marketCap: real,
    totalLiabilities: real,
    revenue: real)

  /** Both divisors of the formula are non-zero. */
  predicate ZDefined(z: ZInputs) {
    z.totalAssets != 0.0 && z.totalLiabilities != 0.0
  }

  /** Altman Z-score with the fixed public-company weights. The four
      asset-scaled terms share one denominator: the score is a weighted sum
      of working capital, retained earnings, EBIT and revenue over total
      assets, plus 0.6 times market cap over total liabilities. */
  function AltmanZ(z: ZInputs): (r: real)
    requires ZDefined(z)
    ensures r == (1.2 * z.workingCapital + 1.4 * z.retainedEarnings + 3.3 * z.ebit + z.revenue) / z.totalAssets
                 + 0.6 * (z.marketCap / z.totalLiabilities)
  {
    1.2 * (z.workingCapital / z.totalAssets)
    + 1.4 * (z.retainedEarnings / z.totalAssets)
    + 3.3 * (z.ebit / z.totalAssets)
    + 0.6 * (z.marketCap / z.totalLiabilities)
    + 1.0 * (z.revenue / z.totalAssets)
  }

  /** With total assets positive and liabilities and market cap fixed, the
      score is non-decreasing in working capital, retained earnings, EBIT
      and revenue, each alone or all together. */
  lemma AltmanZMonotoneInAssetRatios(a: ZInputs, b: ZInputs)
    requires a.totalAssets > 0.0 && a.totalLiabilities != 0.0
    requires b.totalAssets == a.totalAssets && b.totalLiabilities == a.totalLiabilities && b.marketCap == a.marketCap
    requires a.workingCapital <= b.workingCapital && a.retainedEarnings <= b.retainedEarnings
    requires a.ebit <= b.ebit && a.revenue <= b.revenue
    ensures AltmanZ(a) <= AltmanZ(b)
  {
  }

  /** With total liabilities positive and everything else fixed, a larger
      market cap never lowers the score. */
  lemma AltmanZMonotoneInMarketCap(a: ZInputs, b: ZInputs)
    requires a.totalAssets != 0.0 && a.totalLiabilities > 0.0
    requires b == a.(marketCap := b.marketCap) && a.marketCap <= b.marketCap
    ensures AltmanZ(a) <= AltmanZ(b)
  {
  }

  function Scale(z: ZInputs, k: real): ZInputs {
    ZInputs(k * z.totalAssets, k * z.workingCapital, k * z.retainedEarnings, k * z.ebit,
            k * z.marketCap, k * z.totalLiabilities, k * z.revenue)
  }

  /** The score is made of ratios only: expressing every figure in another
      unit (thousands, another currency) leaves it unchanged. */
  lemma AltmanZScaleInvariant(z: ZInputs, k: real)
    requires ZDefined(z) && k != 0.0
    ensures ZDefined(Scale(z, k))
    ensures AltmanZ(Scale(z, k)) == AltmanZ(z)
  {
    var y := Scale(z, k);
    ScaledRatio(z.workingCapital, z.totalAssets, k, y.workingCapital, y.totalAssets);
    ScaledRatio(z.retainedEarnings, z.totalAssets, k, y.retainedEarnings, y.totalAssets);
    ScaledRatio(z.ebit, z.totalAssets, k, y.ebit, y.totalAssets);
    ScaledRatio(z.marketCap, z.totalLiabilities, k, y.marketCap, y.totalLiabilities);
    ScaledRatio(z.revenue, z.totalAssets, k, y.revenue, y.totalAssets);
    SameRatiosSameScore(y, z);
  }

  /** The score depends on the five ratios only. */
  lemma SameRatiosSameScore(a: ZInputs, b: ZInputs)
    requires ZDefined(a) && ZDefined(b)
    requires a.workingCapital / a.totalAssets == b.workingCapital / b.totalAssets
    requires a.retainedEarnings / a.totalAssets == b.retainedEarnings / b.totalAssets
    requires a.ebit / a.totalAssets == b.ebit / b.totalAssets
    requires a.marketCap / a.totalLiabilities == b.marketCap / b.totalLiabilities
    requires a.revenue / a.totalAssets == b.revenue / b.totalAssets
    ensures AltmanZ(a) == AltmanZ(b)
  {
  }

  /** The ratio of two figures scaled by k is their unscaled ratio. */
  lemma ScaledRatio(x: real, y: real, k: real, kx: real, ky: real)
    requires y != 0.0 && k != 0.0 && kx == k * x && ky == k * y
    ensures ky != 0.0 && kx / ky == x / y
  {
    RatioScale(x, y, k);
  }

  /** A ratio does not change when both sides are scaled by the same factor. */
  lemma RatioScale(x: real, y: real, k: real)
    requires y != 0.0 && k != 0.0
    ensures (k * x) / (k * y) == x / y
  {
    assert (k * x) / (k * y) * (k * y) == k * x;
  }
}

=== FILE: statement.dfy ===
/** Financial statement tables and the resolver `get_val` that pulls one line
    item out of them (app.py, lines 10-16). */
module Statement {
  import opened Wrappers

  /** One statement: line-item label to the values of its period columns,
      most recent period first. A label occurs at most once. */
  type Table = map<string, seq<real>>

  /** A statement as the data provider hands it over; None when absent. */
  type Statement = Option<Table>

  /** A table is empty when no label carries a period value: this covers both
      a table without labels and a table without period columns. */
  predicate IsEmpty(t: Table) {
    forall k :: k in t ==> |t[k]| == 0
  }

  /** Every row has the same number of period columns, as in a data frame. */
  predicate Rectangular(t: Table) {
    forall k, k' :: k in t && k' in t ==> |t[k]| == |t[k']|
  }

  /** A statement a data frame can represent: absent, or a rectangular table. */
  predicate WellFormed(s: Statement) {
    s.None? || Rectangular(s.value)
  }

  /** True when no candidate label is a row of the table. */
  predicate NoneListed(t: Table, labels: seq<string>) {
    forall j :: 0 <= j < |labels| ==> labels[j] !in t
  }

  /** The position of the first candidate label that is a row of the table,
      scanning the candidates in priority order. */
  function FirstMatch(t: Table, labels: seq<string>): (r: Option<nat>)
    ensures r.None? <==> NoneListed(t, labels)
    ensures r.Some? ==> r.value < |labels| && labels[r.value] in t
    ensures r.Some? ==> NoneListed(t, labels[..r.value])
  {
    if |labels| == 0 then None
    else if labels[0] in t then Some(0)
    else
      match FirstMatch(t, labels[1..])
      case None => None
      case Some(j) =>
        assert labels[1..][..j] == labels[1..j + 1];
        Some(j + 1)
  }

  /** `get_val(df, keys, row_idx)`: the value in column `period` of the row
      under the first candidate label present; 0 when the statement is absent
      or empty or no candidate is present. An out-of-range period raises in
      app.py; that failure is None here. */
  function GetVal(table: Statement, labels: seq<string>, period: nat): (r: Option<real>)
    ensures table.None? ==> r == Some(0.0)
    ensures table.Some? && IsEmpty(table.value) ==> r == Some(0.0)
    ensures table.Some? && NoneListed(table.value, labels) ==> r == Some(0.0)
    ensures table.Some? && !IsEmpty(table.value) ==>
      forall j :: 0 <= j < |labels| && labels[j] in table.value && NoneListed(table.value, labels[..j]) ==>
        r == (if period < |table.value[labels[j]]| then Some(table.value[labels[j]][period]) else None)
  {
    match table
    case None => Some(0.0)
    case Some(t) =>
      if IsEmpty(t) then Some(0.0)
      else
        match FirstMatch(t, labels)
        case None => Some(0.0)
        case Some(j) =>
          FirstMatchUnique(t, labels, j);
          var row := t[labels[j]];
          if period < |row| then Some(row[period]) else None
  }

  /** At most one position is "first present candidate". */
  lemma FirstMatchUnique(t: Table, labels: seq<string>, j: nat)
    requires j < |labels| && labels[j] in t && NoneListed(t, labels[..j])
    ensures forall i :: 0 <= i < |labels| && labels[i] in t && NoneListed(t, labels[..i]) ==> i == j
  {
  }

  /** Candidates listed after a matching label are never consulted: appending
      more labels to a list that already has a present label changes nothing. */
  lemma {:induction false} GetValIgnoresLaterLabels(table: Statement, labels: seq<string>, more: seq<string>, period: nat)
    requires table.Some? && !NoneListed(table.value, labels)
    ensures GetVal(table, labels + more, period) == GetVal(table, labels, period)
  {
    var t := table.value;
    FirstMatchPrefix(t, labels, more);
  }

  /** Appending candidates after a present one leaves the first match where it was. */
  lemma {:induction false} FirstMatchPrefix(t: Table, labels: seq<string>, more: seq<string>)
    requires !NoneListed(t, labels)
    ensures FirstMatch(t, labels + more) == FirstMatch(t, labels)
  {
    if labels[0] in t {
      assert (labels + more)[0] == labels[0];
    } else {
      assert (labels + more)[1..] == labels[1..] + more;
      assert !NoneListed(t, labels[1..]) by {
        var j :| 0 <= j < |labels| && labels[j] in t;
        assert j != 0;
        assert labels[1..][j - 1] == labels[j];
      }
      FirstMatchPrefix(t, labels[1..], more);
    }
  }

  /** On a statement a data frame can represent, the latest period is always
      readable: `get_val(df, keys)` with the default period never raises. */
  lemma GetValLatestDefined(table: Statement, labels: seq<string>)
    requires WellFormed(table)
    ensures GetVal(table, labels, 0).Some?
  {
    if table.Some? && !IsEmpty(table.value) {
      var t := table.value;
      var k :| k in t && |t[k]| != 0;
      match FirstMatch(t, labels)
      case None =>
      case Some(j) =>
        assert |t[labels[j]]| == |t[k]|;
    }
  }
}

=== FILE: styling.dfy ===
/** Conditional colouring of the "Altman Z-Score" column (app.py, lines
    107-111) and the risk bands behind it (lines 58 and 118). */
module Styling {

  /** A cell of the results table: a float, or anything else (text). */
  datatype Value = Num(x: real) | Text(s: string)

  const SafeStyle: string := "background-color: #2ecc71; color: white"
  const DistressStyle: string := "background-color: #e74c3c; color: white"

  /** The Altman risk bands: safe above 3, distress below 1.8 (the two the
      legend names), grey in between. The code's own note puts grey strictly
      between 1.8 and 3; the model puts both endpoints in grey, as `color_z`
      gives them no style. */
  datatype ZBand = Distress | Grey | Safe

  function Band(z: real): (b: ZBand)
    ensures b == Safe <==> z > 3.0
    ensures b == Distress <==> z < 1.8
    ensures b == Grey <==> 1.8 <= z <= 3.0
  {
    if z > 3.0 then Safe else if z < 1.8 then Distress else Grey
  }

  function BandStyle(b: ZBand): string {
    match b
    case Safe => SafeStyle
    case Distress => DistressStyle
    case Grey => ""
  }

  /** `color_z`: a float cell gets the style of its band (green above 3, red
      below 1.8, none in between); a cell that is not a float gets no style. */
  function ColorZ(v: Value): (style: string)
    ensures style == SafeStyle <==> v.Num? && v.x > 3.0
    ensures style == DistressStyle <==> v.Num? && v.x < 1.8
    ensures style == "" <==> v.Text? || 1.8 <= v.x <= 3.0
  {
    match v
    case Num(x) => BandStyle(Band(x))
    case Text(_) => ""
  }

  /** Bands ordered from most to least risky. */
  function Rank(b: ZBand): nat {
    match b
    case Distress => 0
    case Grey => 1
    case Safe => 2
  }

  /** A numeric cell is green exactly in the safe band and red exactly in
      the distress band; the two styles and "no style" are all different. */
  lemma ColorZFollowsBand(z: real)
    ensures ColorZ(Num(z)) == SafeStyle <==> Band(z) == Safe
    ensures ColorZ(Num(z)) == DistressStyle <==> Band(z) == Distress
    ensures SafeStyle != DistressStyle && SafeStyle != "" && DistressStyle != ""
  {
  }

  /** A higher Z-score never falls into a riskier band. */
  lemma BandMonotone(z: real, z': real)
    requires z <= z'
    ensures Rank(Band(z)) <= Rank(Band(z'))
  {
  }
}

=== FILE: symbol.dfy ===
/** Ticker symbol normalisation as done before the provider lookup
    (app.py, line 20): `strip()`, then `upper()`, then every '.' becomes '-'. */
module Symbol {

  /** Python's `str.isspace` on ASCII: space, tab, line feed, vertical tab,
      form feed, carriage return and the separators 0x1C-0x1F. */
  predicate IsSpace(c: char) {
    c == ' ' || 9 <= c as int <= 13 || 28 <= c as int <= 31
  }

  predicate IsLower(c: char) {
    'a' <= c <= 'z'
  }

  /** True when the string neither starts nor ends with whitespace. */
  predicate Trimmed(s: string) {
    |s| == 0 || (!IsSpace(s[0]) && !IsSpace(s[|s| - 1]))
  }

  predicate AllSpace(s: string) {
    forall i :: 0 <= i < |s| ==> IsSpace(s[i])
  }

  /** The first position at or after `i` that is not whitespace, or |s|. */
  function SkipSpaces(s: string, i: nat): (j: nat)
    requires i <= |s|
    ensures i <= j <= |s|
    ensures forall k :: i <= k < j ==> IsSpace(s[k])
    ensures j < |s| ==> !IsSpace(s[j])
    decreases |s| - i
  {
    if i < |s| && IsSpace(s[i]) then SkipSpaces(s, i + 1) else i
  }

  /** Walking back from `j` to no further than `lo`: one past the last
      position that is not whitespace, or `lo`. */
  function SkipSpacesBack(s: string, lo: nat, j: nat): (e: nat)
    requires lo <= j <= |s|
    ensures lo <= e <= j
    ensures forall k :: e <= k < j ==> IsSpace(s[k])
    ensures lo < e ==> !IsSpace(s[e - 1])
    decreases j
  {
    if lo < j && IsSpace(s[j - 1]) then SkipSpacesBack(s, lo, j - 1) else j
  }

  /** Where the text kept by `strip()` begins: what `lstrip()` removes ends here. */
  function StripStart(s: string): nat
  {
    SkipSpaces(s, 0)
  }

  /** Where the text kept by `strip()` ends: what `rstrip()` removes starts here. */
  function StripEnd(s: string): (e: nat)
    ensures StripStart(s) <= e <= |s|
  {
    SkipSpacesBack(s, StripStart(s), |s|)
  }

  /** `strip()`: the string without its leading and trailing whitespace. The
      result is a slice of the input, everything cut away on either side is
      whitespace, and the result neither starts nor ends with whitespace. */
  function Strip(s: string): (r: string)
    ensures StripStart(s) + |r| <= |s| && r == s[StripStart(s)..StripStart(s) + |r|]
    ensures forall k :: 0 <= k < StripStart(s) ==> IsSpace(s[k])
    ensures forall k :: StripStart(s) + |r| <= k < |s| ==> IsSpace(s[k])
    ensures Trimmed(r)
  {
    s[StripStart(s)..StripEnd(s)]
  }

  /** The scan forward stops exactly at the first non-whitespace position. */
  lemma SkipSpacesAt(s: string, i: nat, j: nat)
    requires i <= j <= |s|
    requires forall k :: i <= k < j ==> IsSpace(s[k])
    requires j < |s| ==> !IsSpace(s[j])
    ensures SkipSpaces(s, i) == j
  {
  }

  /** The scan backward stops exactly after the last non-whitespace position. */
  lemma SkipSpacesBackAt(s: string, lo: nat, e: nat, j: nat)
    requires lo <= e <= j <= |s|
    requires forall k :: e <= k < j ==> IsSpace(s[k])
    requires lo < e ==> !IsSpace(s[e - 1])
    ensures SkipSpacesBack(s, lo, j) == e
  {
  }

  /** `upper()` on ASCII letters; every other character is kept. */
  function UpperChar(c: char): char {
    if IsLower(c) then (c as int - 32) as char else c
  }

  function Upper(s: string): (r: string)
    ensures |r| == |s| && forall i :: 0 <= i < |s| ==> r[i] == UpperChar(s[i])
  {
    seq(|s|, i requires 0 <= i < |s| => UpperChar(s[i]))
  }

  /** `replace('.', '-')`. */
  function DashDots(s: string): (r: string)
    ensures |r| == |s| && forall i :: 0 <= i < |s| ==> r[i] == (if s[i] == '.' then '-' else s[i])
  {
    seq(|s|, i requires 0 <= i < |s| => if s[i] == '.' then '-' else s[i])
  }

  /** The symbol handed to the data provider: the stripped input, character
      by character upper-cased with '-' in place of '.'. It holds no '.', no
      lower-case ASCII letter, no surrounding whitespace, and is never longer
      than the input. */
  function NormalizeSymbol(s: string): (r: string)
    ensures |r| == |Strip(s)|
    ensures forall i :: 0 <= i < |r| ==>
      r[i] == (if Strip(s)[i] == '.' then '-' else UpperChar(Strip(s)[i]))
    ensures '.' !in r
    ensures forall i :: 0 <= i < |r| ==> !IsLower(r[i])
    ensures Trimmed(r)
    ensures |r| <= |s|
  {
    DashDots(Upper(Strip(s)))
  }

  /** Stripping a string that is already trimmed returns it unchanged. */
  lemma {:induction false} StripTrimmed(s: string)
    requires Trimmed(s)
    ensures Strip(s) == s
  {
    assert [] + s + [] == s;
    StripOfPadded([], s, []);
  }

  /** A symbol already in provider form (trimmed, upper case, no '.') is
      passed on unchanged. */
  lemma NormalizeFixesNormal(s: string)
    requires Trimmed(s) && '.' !in s
    requires forall i :: 0 <= i < |s| ==> !IsLower(s[i])
    ensures NormalizeSymbol(s) == s
  {
    StripTrimmed(s);
  }

  /** Normalising twice is the same as normalising once. */
  lemma NormalizeIdempotent(s: string)
    ensures NormalizeSymbol(NormalizeSymbol(s)) == NormalizeSymbol(s)
  {
    StripTrimmed(NormalizeSymbol(s));
  }

  /** Normalisation ignores surrounding whitespace: padding a symbol with
      whitespace on either side yields the same provider symbol. */
  lemma NormalizeIgnoresPadding(s: string, pre: string, post: string)
    requires AllSpace(pre) && AllSpace(post)
    ensures NormalizeSymbol(pre + s + post) == NormalizeSymbol(s)
  {
    StripPadding(s, pre, post);
  }

  lemma StripPadding(s: string, pre: string, post: string)
    requires AllSpace(pre) && AllSpace(post)
    ensures Strip(pre + s + post) == Strip(s)
  {
    var m := Strip(s);
    var a := StripStart(s);
    var lead, trail := s[..a], s[a + |m|..];
    assert s == lead + m + trail;
    AllSpaceConcat(pre, lead);
    AllSpaceConcat(trail, post);
    Regroup(pre, lead, m, trail, post);
    StripOfPadded(pre + lead, m, trail + post);
  }

  lemma Regroup(pre: string, lead: string, m: string, trail: string, post: string)
    ensures pre + (lead + m + trail) + post == (pre + lead) + m + (trail + post)
  {
  }

  lemma AllSpaceConcat(x: string, y: string)
    requires AllSpace(x) && AllSpace(y)
    ensures AllSpace(x + y)
  {
    forall i | 0 <= i < |x + y| ensures IsSpace((x + y)[i]) {
      if i >= |x| { assert (x + y)[i] == y[i - |x|]; }
    }
  }

  /** Strip is determined by its contract: the whitespace around a trimmed
      middle is exactly what it removes. */
  lemma StripOfPadded(lead: string, m: string, trail: string)
    requires AllSpace(lead) && Trimmed(m) && AllSpace(trail)
    ensures Strip(lead + m + trail) == m
  {
    var s := lead + m + trail;
    var a := |lead|;
    if |m| > 0 {
      assert s[a] == m[0];
      SkipSpacesAt(s, 0, a);
      assert s[a + |m| - 1] == m[|m| - 1];
      SkipSpacesBackAt(s, a, a + |m|, |s|);
      assert s[a..a + |m|] == m;
    } else {
      SkipSpacesAt(s, 0, |s|);
      SkipSpacesBackAt(s, |s|, |s|, |s|);
    }
  }
}

=== FILE: wrappers.dfy ===
/** The optional value used throughout the model: a failed lookup, a missing
    statement or a skipped ticker is `None`. */
module Wrappers {

  datatype Option<+T> = None | Some(value: T)
}
